=== FILE: README.md ===
# tcp_server interval index, in Dafny

`tcp_server` is a small TCP server that keeps one shared interval tree of
labelled half-open ranges of 32-bit unsigned integers. There is no line
framing: each chunk one `recv` call returns is one command, split on
whitespace into tokens. A client sends one of three commands:

- `ADD begin end name` stores the interval `[begin, end)` with label `name`
  and answers `OK`;
- `DEL begin end name` deletes the inclusive range `[begin, end]` for one
  label. It removes that label's intervals lying inside the range and trims
  back that label's intervals hanging into it. `DEL begin end` without a name
  removes the intervals of every label that lie inside the range, but trims
  nothing (see below). Both answer `OK`;
- `FIND x` or `FIND begin end` answers the sorted, space-separated labels of
  the intervals containing `x` or overlapping `[begin, end)`. If nothing
  matches, it answers `ERROR no results`.

A validator checks every command before anything is done with it. An empty
token list is ignored without a reply. Every other bad command gets a fixed
error reply:
wrong verb, wrong arity, an argument that is not an integer, an integer
outside `[0, 2^32 - 1]`, or a label with a character outside
`[a-zA-Z0-9_-]`.

The project models three things.

- **Intervals and the tree's queries** (`intervals.dfy`, module `Intervals`):
  - the tree's contents are a `set<Interval>`;
  - the library queries `at` and `overlap` are modelled, and so is the
    server's own `envelop`;
  - `Envelop` keeps the source's strategy of collecting candidates through the
    window's boundary points and then filtering. It is proved equal to the
    direct definition `Enclosed` (every interval lying inside the window, with
    the label filter applied when the label is truthy);
  - `Chopped` is what `chop` leaves behind. The `Chop*` lemmas say what that
    means: the window is cleared for the label, coverage outside the window is
    unchanged, and other labels are untouched.
- **The tree object** (`index.dfy`, module `Index`). `CustomIntervalTree` is
  the class `IntervalIndex`, whose field `intervals` its methods `Add`,
  `RemoveEnvelop` and `Chop` update in place. Each method is proved against
  the functions above. The loops of `chop` are the methods `CollectLeftStubs`
  and `CollectRightStubs`.
- **The protocol and the handlers** (modules `Protocol`, `Labels` and `Server`):
  - the validators are total functions from the token list to a verdict and
    the reply the source would send;
  - `perform_add`, `perform_delete`, `perform_find`, `perform_action` and one
    pass of the connection loop are methods acting on an `IntervalIndex`;
  - a reply is returned instead of being written to the socket;
  - Python's `sorted` on strings (Timsort in CPython) is rendered here as an
    insertion sort under code-point order. The choice of algorithm does not
    matter: the sorted permutation of a list of strings is unique
    (`SortedUnique`), so a FIND reply depends only on the multiset of
    matching labels.

`scenarios.dfy` restates the test suite's command lines and expected replies
as lemmas and three small sessions.

Python integers are unbounded and so are Dafny's. The only width in the
source is the validator's explicit bound `MAX_INT = 2^32 - 1`, which is
modelled as written.

### Behaviour worth knowing, as the code is written

- Chop labels every fragment the same way in both of its branches, with or
  without a label filter. A hanger is selected only when `iv.data == data`,
  so the `data` branch, which writes `data`, and the other branch, which
  writes `iv.data`, produce the same intervals. `ChopFragments` states this
  (every fragment has label `d`).
- The validator does not compare `begin` with `end`.
  - `ADD 5 5 x` or `ADD 7 3 x` reaches the library, which refuses a null
    interval. Nothing is stored and no `OK` is sent (`PerformAdd`).
  - `DEL 5 2 x` chops the inverted window `[5, 3)`. Nothing is enclosed in it,
    but an interval hanging over 5 is still cut back to end at 5
    (`DeleteInvertedRange`).
  - An interval that hangs over both ends of an inverted window is cut twice:
    `DEL 5 2 x` on `[1,10,x]` leaves `[1,5,x]` and `[3,10,x]`, two intervals
    with the same label that overlap each other (`DeleteInvertedOverlap`).
- DEL without a name calls `chop` with `data=None`. Hangers are selected by
  `iv.data == data`, and every stored interval has a label, so there are no
  hangers: only the intervals lying wholly inside the range go, and an
  interval that hangs into it is kept whole (`UnnamedChopOnlyRemoves`,
  `DeleteWithoutName`).
- FIND lists one label per matching interval. It does not merge duplicates:
  two intervals labelled `x` give `x x`.
- A FIND whose matching labels are exactly `ERROR`, `no` and `results` gets
  the same reply as a FIND that matches nothing (`NoResultsIsAmbiguous`).

## Model

| member | source | states |
|---|---|---|
| Intervals.At | tcp_server/tcp_server.py:132 | the point query returns exactly the stored intervals containing the point (`begin <= x < end`) |
| Intervals.Overlap | tcp_server/tcp_server.py:134 | the range query returns only stored intervals that overlap `[b, e)`, and every one that does; nothing for an empty range |
| Intervals.CandidatesCoverEnclosed | tcp_server/tcp_server.py:59-69 | in a tree without null intervals, every interval inside `[b, e)` is found either at `b` or at a boundary point in `[b, e)` |
| Intervals.Envelop | tcp_server/tcp_server.py:41-78 | envelop returns only intervals inside `[b, e)` that pass the label filter; in a tree without null intervals it returns all of them; an empty tree or an empty range gives the empty set |
| Intervals.LeftHangers | tcp_server/tcp_server.py:24 | the left hangers are exactly the stored intervals labelled `d` that start before `b` and end after it |
| Intervals.RightHangers | tcp_server/tcp_server.py:25 | the right hangers are exactly the stored intervals labelled `d` that contain `e` and end after it |
| Intervals.Chopped | tcp_server/tcp_server.py:16-39 | definition (no contract of its own): the old set minus the enclosed intervals and the hangers, plus the trimmed fragments; the Chop* lemmas state what it means |
| Intervals.ChopFragments | tcp_server/tcp_server.py:24-35 | every interval chop inserts is non-empty, carries the filter label `d` in both branches, and lies inside an original interval with that label |
| Intervals.ChopPreservesWellFormed | tcp_server/tcp_server.py:16-39 | chop never leaves a null interval in the tree |
| Intervals.ChopPreservesLabels | tcp_server/tcp_server.py:16-39 | if every stored interval has a label, every interval after chop has one too |
| Intervals.ChopClearsWindow | tcp_server/tcp_server.py:16-39 | after chop of a non-empty window, no interval with label `d` overlaps `[b, e)` |
| Intervals.ChopCoverage | tcp_server/tcp_server.py:16-39 | after chop, label `d` covers point `x` exactly when it covered `x` before and `x` is outside `[b, e)` |
| Intervals.ChopKeepsOtherLabels | tcp_server/tcp_server.py:24-36 | with a truthy label, chop keeps every interval with another label and adds none |
| Intervals.UnnamedChopOnlyRemoves | tcp_server/tcp_server.py:24-25 | on a tree whose intervals all have a label, chop with `data=None` removes exactly the enclosed intervals and trims nothing |
| Intervals.ChopWithoutLabel | tcp_server/tcp_server.py:24-36 | without a truthy label, an interval whose data differs from the filter survives chop exactly when it is not enclosed in `[b, e)`, and no such interval is added |
| Index.IntervalIndex.constructor | tcp_server/tcp_server.py:93 | a new tree is empty |
| Index.IntervalIndex.Add | tcp_server/tcp_server.py:119 | `tree[b:e] = name` stores `[b, e, name]` when `b < e`; otherwise it refuses and leaves the tree unchanged |
| Index.IntervalIndex.RemoveEnvelop | tcp_server/tcp_server.py:80-90 | the loop over envelop's hits leaves exactly the old tree minus the intervals enclosed in `[b, e)` under the label filter |
| Index.IntervalIndex.Chop | tcp_server/tcp_server.py:16-39 | the tree afterwards is the old tree minus enclosed intervals and hangers, plus the trimmed stubs (`Chopped`); no null interval appears and labels are kept |
| Index.CollectLeftStubs | tcp_server/tcp_server.py:26-33 | the loop builds one fragment `[iv.begin, b)` per left hanger, labelled by the filter when it is truthy and by the hanger otherwise |
| Index.CollectRightStubs | tcp_server/tcp_server.py:26-35 | the loop builds one fragment `[e, iv.end)` per right hanger, labelled the same way |
| Labels.LexLe | tcp_server/tcp_server.py:132 | definition (no contract of its own): Python's `<=` on `str`, lexicographic by code point; its laws are the next three rows |
| Labels.LexLeTotal | tcp_server/tcp_server.py:132 | Python's string order is total |
| Labels.LexLeTransitive | tcp_server/tcp_server.py:132 | Python's string order is transitive |
| Labels.LexLeAntisymmetric | tcp_server/tcp_server.py:132 | two strings each at most the other are equal |
| Labels.Sort | tcp_server/tcp_server.py:132-134 | `sorted` returns an ordered permutation of its input |
| Labels.SortedUnique | tcp_server/tcp_server.py:132-138 | two ordered sequences with the same multiset of strings are equal, so the reply depends only on which labels match |
| Labels.Join | tcp_server/tcp_server.py:138 | definition (no contract of its own): Python's `" ".join(words)`; `SplitJoin` is its inverse |
| Labels.SplitJoin | tcp_server/tcp_server.py:138 | splitting `" ".join(words)` on spaces gives back the words when the list is non-empty and no word contains a space |
| Protocol.ParseInt | tcp_server/tcp_server.py:209 | `int(tok)` succeeds exactly on a run of decimal digits, optionally after one `+` or `-` (so `1a`, `1-2` and `12+` fail); a run of digits parses to its decimal value, `+digits` to the same value and `-digits` to its negation; a token with no digit fails, and only a leading minus gives a negative value |
| Protocol.ParseIntRoundTrip | tcp_server/tcp_server.py:209 | `int()` reads back the decimal string of every natural number, the same string after `+`, and its negation after `-` |
| Protocol.ValidateNumericArg | tcp_server/tcp_server.py:207-216 | an argument is accepted exactly when it parses to an integer in `[0, 2^32 - 1]`; a non-integer gets "ERROR <place> arg must be an integer", an out-of-range integer gets `ERROR invalid integer "<tok>"` |
| Protocol.NumericArgOfDecimal | tcp_server/tcp_server.py:207-216 | the decimal string of `n`, bare or after `+`, is accepted exactly when `n <= 2^32 - 1` and is rejected as an invalid integer otherwise (so `+4294967296` is refused); `-n` is rejected as an invalid integer for every `n > 0` |
| Protocol.ValidateTextArg | tcp_server/tcp_server.py:219-221 | a label is accepted exactly when every character is an ASCII letter, a digit, `-` or `_` |
| Protocol.ValidateAdd | tcp_server/tcp_server.py:154-170 | ADD is accepted exactly when it has four tokens, two valid integers and a valid label; otherwise the first failing check, in the source's order, picks the reply |
| Protocol.ValidateDelete | tcp_server/tcp_server.py:172-189 | DEL is accepted exactly when it has three or four tokens, two valid integers and, if present, a valid label; the first failing check picks the reply |
| Protocol.ValidateFind | tcp_server/tcp_server.py:191-204 | FIND is accepted exactly when it has two or three tokens that are all valid integers; the first failing check picks the reply |
| Protocol.ValidateData | tcp_server/tcp_server.py:141-152 | a line is accepted exactly when it is a well-formed ADD, DEL or FIND; an empty line is rejected silently, an unknown verb gets "ERROR invalid command", and a line with verb ADD, DEL or FIND gets exactly the verdict and reply of that verb's validator |
| Server.PerformAdd | tcp_server/tcp_server.py:118-120 | a valid ADD with `begin < end` inserts the interval and replies OK; otherwise the tree is unchanged and nothing is sent |
| Server.PerformDelete | tcp_server/tcp_server.py:122-127 | DEL chops `[begin, end + 1)`, with the label if one is given and without a filter if not, and replies OK |
| Server.DeleteCoverage | tcp_server/tcp_server.py:122-127 | for the named form `DEL b e name` with `b <= e`, the label covers no point of `[b, e]` and still covers every other point it covered before |
| Server.FindMatches | tcp_server/tcp_server.py:131-134 | `FIND x` selects exactly the stored intervals containing `x`; `FIND b e` selects exactly those overlapping `[b, e)`, and none when `b >= e` |
| Server.LabelBagRemove | tcp_server/tcp_server.py:132 | the multiset of labels of a set of intervals does not depend on the order in which the set is visited |
| Server.CollectLabels | tcp_server/tcp_server.py:132-134 | the list comprehension yields one label per matching interval, as a multiset equal to the labels of the matches |
| Server.PerformFind | tcp_server/tcp_server.py:129-139 | the reply is `FindReply`: no match replies "ERROR no results"; otherwise the matches' labels, one per interval, in sorted order, joined by spaces, with a newline; the tree is only read |
| Server.FindReply | tcp_server/tcp_server.py:135-139 | definition (no contract of its own): "ERROR no results" when nothing matches, otherwise the sorted labels of the matches, one per interval, joined by spaces |
| Server.Outcome | tcp_server/tcp_server.py:114-127 | definition (no contract of its own): what each accepted command does to the tree and which reply it sends |
| Server.PerformAction | tcp_server/tcp_server.py:114-116 | the new tree and the reply are the `Outcome` of the command: ADD inserts and replies OK (a null interval changes nothing and gets no reply), DEL chops `[begin, end + 1)` and replies OK, FIND leaves the tree unchanged and sends its `FindReply` |
| Server.HandleLine | tcp_server/tcp_server.py:106-112 | a rejected token list (one `recv` chunk) leaves the tree unchanged and gets the validator's reply; an accepted one changes the tree and gets the reply its `Outcome` prescribes |
| Scenarios.NumericArgExamples | tests/test_tcp_server.py:27-58 | `-1` is an invalid integer, `blah` is not an integer in either place, and `1` is accepted |
| Scenarios.TextArgExamples | tests/test_tcp_server.py:60-70 | a label with spaces or `!` is refused and `goodarg` is accepted |
| Scenarios.AddArityExample | tests/test_tcp_server.py:72-79 | ADD with five tokens gets "ERROR invalid ADD command" |
| Scenarios.AddFirstArgExample | tests/test_tcp_server.py:81-87 | `ADD one 2 three` is refused on its first argument |
| Scenarios.MixedTokenExample | tcp_server/tcp_server.py:207-215 | `ADD 1a 2 x` is refused on its first argument: `1a` is not an integer |
| Scenarios.AddSecondArgExample | tests/test_tcp_server.py:89-97 | `ADD 1 two three` is refused on its second argument |
| Scenarios.AddNameExample | tests/test_tcp_server.py:99-105 | `ADD 1 2 badvar!` gets "ERROR name arg must be a string" |
| Scenarios.OtherRejectionExamples | tests/test_tcp_server.py:115-206 | wrong DEL and FIND arity, an unknown verb and an empty line are each rejected with their own reply |
| Scenarios.AcceptedExamples | tests/test_tcp_server.py:107-214 | `ADD 1 2 goodvar`, `DEL 1 2 goodvar`, `FIND 1 2`, `ADD 1 2 x`, `DEL 1 2` and `FIND 1` are accepted with no reply |
| Scenarios.SessionLinesAccepted | tests/test_tcp_server.py:216-300 | every command line the handler tests use (`ADD 1 5 x`, `ADD 5 10 y`, `DEL 2 3 x`, `FIND 3`, `FIND 2 7`, `FIND 1`) is well formed |
| Scenarios.EmptyFindSession | tests/test_tcp_server.py:264-268 | `FIND 1` on an empty tree answers "ERROR no results" |
| Scenarios.DeletePartialEntry | tests/test_tcp_server.py:234-245 | deleting 2..3 from `[1,5,x]` leaves `[1,2,x]` and `[4,5,x]` |
| Scenarios.DeleteEntireEntry | tests/test_tcp_server.py:223-232 | deleting 1..2 from `[1,2,x]` leaves nothing |
| Scenarios.DeleteNamedEntry | tests/test_tcp_server.py:247-262 | deleting 1..5 for `x` from `[1,5,x]` and `[1,5,y]` leaves `[1,5,y]` |
| Scenarios.DeleteInvertedRange | tcp_server/tcp_server.py:122-127 | `DEL 5 2 x` on `[4,10,x]` leaves `[4,5,x]` |
| Scenarios.DeleteInvertedOverlap | tcp_server/tcp_server.py:24-39 | `DEL 5 2 x` on `[1,10,x]` leaves the two overlapping fragments `[1,5,x]` and `[3,10,x]` |
| Scenarios.DeleteWithoutName | tcp_server/tcp_server.py:123-124 | `DEL 2 3` without a name on `[1,5,x]` leaves `[1,5,x]` whole |
| Scenarios.NoResultsIsAmbiguous | tcp_server/tcp_server.py:135-138 | matching labels `ERROR`, `no` and `results` produce the same reply as no match |
| Scenarios.TwoLabelsReply | tests/test_tcp_server.py:286-300 | labels `x` and `y`, in any order, give the reply `x y` |
| Scenarios.OneLabelReply | tests/test_tcp_server.py:270-284 | a single label `x` gives the reply `x` |
| Scenarios.SessionPointQuery | tests/test_tcp_server.py:270-284 | `FIND 3` over `[1,5,x]` and `[5,10,y]` matches only `[1,5,x]` |
| Scenarios.SessionRangeQuery | tests/test_tcp_server.py:286-300 | `FIND 2 7` over `[1,5,x]` and `[5,10,y]` matches both |
| Scenarios.SessionPointReply | tests/test_tcp_server.py:282-284 | any reply `perform_find` may send for `FIND 3` over `[1,5,x]` and `[5,10,y]` is `x` |
| Scenarios.SessionRangeReply | tests/test_tcp_server.py:298-300 | any reply `perform_find` may send for `FIND 2 7` over `[1,5,x]` and `[5,10,y]` is `x y` |
| Scenarios.FindSession | tests/test_tcp_server.py:286-300 | the session `ADD 1 5 x`, `ADD 5 10 y`, `FIND 3`, `FIND 2 7` answers `OK`, `OK`, `x`, `x y` |
| Scenarios.DeleteSession | tests/test_tcp_server.py:234-245 | the session `ADD 1 5 x`, `DEL 2 3 x` answers `OK`, `OK` and leaves `[1,2,x]` and `[4,5,x]` |

## Left out

- Socket I/O is not modelled. This covers `run`, the accept loop, `recv`, UTF-8 decoding, `strip().split()` and `send` with `str.encode`. `HandleLine` takes the token list of one `recv` chunk and returns the reply instead of sending it. So the model does not capture these consequences of the framing: two commands arriving in one chunk (`ADD 1 5 x\nFIND 3\n`) are one list of six tokens and get `ERROR invalid ADD command` with nothing stored; a command longer than 2048 bytes is cut across two chunks; and after the client disconnects, `recv` returns `b""`, the empty token list, so the thread loops forever without replying.
- Threading is not modelled. The source shares the unsynchronised global `TREE` between client threads; the model has one index and one caller at a time.
- Logging (`loguru`) and the environment configuration (`HOSTNAME`, `PORT`, `BUFFER_SIZE`) have no effect on the replies and are left out.
- The internals of the `intervaltree` library are not part of this model: the balanced tree, `search_point`, `search_overlap` and the `boundary_table` reference counts. The tree is a set, and its boundary table is the set of all interval endpoints.
- Intervals.Overlap: for an empty or inverted range the model returns nothing. The library's own answer there is not part of this model. FIND validation does not order its two arguments, so `FIND 7 2` reaches that case.
- Intervals.Envelop: the one-argument form (lines 54-56), which takes an `Interval`, is not modelled. Chop always calls envelop with two integers.
- Index.IntervalIndex.Add: the library raises `ValueError` on a null interval, and that exception ends the client's thread. The model only records that nothing is stored and nothing is sent. It does not model the end of the connection.
- Protocol.ParseInt: `int()` is modelled as an optional sign followed by ASCII digits. Surrounding whitespace (never present after `split()`), `_` digit separators and non-ASCII Unicode digits, which Python's `int()` also accepts, are not modelled.
- Scenarios.NumericArgExamples: the test's out-of-range literal `4294967296` is not spelled out. It is the case `n = 2^32` of `Protocol.NumericArgOfDecimal`.
- Server.PerformFind: it requires every stored interval to have a label, which holds for every tree the server builds. Sorting intervals whose data is `None` is not modelled.
- Protocol.ValidateTextArg: the regular-expression engine is replaced by its meaning, a character-by-character test.

=== FILE: index.dfy ===
/**
  The server's interval tree (`CustomIntervalTree`), as an object whose one
  field, the set of stored intervals, its methods update in place.
 */
module Index {
  import opened Wrappers
  import opened Intervals

  class IntervalIndex {
    var intervals: set<Interval>

    /** What the library guarantees of every tree: no empty interval is stored. */
    ghost predicate Valid()
      reads this
    {
      WellFormed(intervals)
    }

    /** What the server keeps on top: every stored interval carries a label. */
    ghost predicate Labelled()
      reads this
    {
      forall iv :: iv in intervals ==> iv.data.Some?
    }

    constructor ()
      ensures Valid() && Labelled()
      ensures intervals == {}
    {
      intervals := {};
    }

    /**
      `tree[begin:end] = name`.  The library refuses an empty or inverted
      interval; that refusal is `ok == false` and leaves the tree as it was.
      Adding an interval already present changes nothing.
     */
    method Add(b: int, e: int, name: string) returns (ok: bool)
      requires Valid()
      modifies this
      ensures Valid()
      ensures old(Labelled()) ==> Labelled()
      ensures ok <==> b < e
      ensures intervals == if ok then old(intervals) + {Interval(b, e, Some(name))} else old(intervals)
    {
      ok := b < e;
      if ok {
        intervals := intervals + {Interval(b, e, Some(name))};
      }
    }

    /** Removes, one by one, every interval the envelop query returns. */
    method RemoveEnvelop(b: int, e: int, d: Option<string>)
      requires Valid()
      modifies this
      ensures Valid()
      ensures old(Labelled()) ==> Labelled()
      ensures intervals == old(intervals) - Enclosed(old(intervals), b, e, d)
    {
      var hitlist := Envelop(intervals, b, e, d);
      ghost var start := intervals;
      while hitlist != {}
        invariant hitlist <= Enclosed(start, b, e, d)
        invariant intervals == start - (Enclosed(start, b, e, d) - hitlist)
        decreases |hitlist|
      {
        var iv :| iv in hitlist;
        intervals := intervals - {iv};
        hitlist := hitlist - {iv};
      }
    }

    /**
      Deletes [b, e) for label `d`: the enclosed intervals go, and every
      hanger is replaced by the part of it outside the window.
     */
    method Chop(b: int, e: int, d: Option<string>)
      requires Valid()
      modifies this
      ensures Valid()
      ensures old(Labelled()) ==> Labelled()
      ensures intervals == Chopped(old(intervals), b, e, d)
    {
      ghost var t := intervals;
      var beginHits := set iv | iv in At(intervals, b) && iv.begin < b && iv.data == d;
      var endHits := set iv | iv in At(intervals, e) && iv.end > e && iv.data == d;
      var leftStubs := CollectLeftStubs(beginHits, b, d);
      var rightStubs := CollectRightStubs(endHits, e, d);
      assert beginHits == LeftHangers(t, b, d);
      assert endHits == RightHangers(t, e, d);
      RemoveEnvelop(b, e, d);
      ghost var enclosed := Enclosed(t, b, e, d);
      assert intervals == t - enclosed;
      intervals := intervals - beginHits;
      intervals := intervals - endHits;
      intervals := intervals + leftStubs + rightStubs;
      assert intervals == Chopped(t, b, e, d) by {
        assert intervals == (t - enclosed - beginHits - endHits) + leftStubs + rightStubs;
      }
      ChopPreservesWellFormed(t, b, e, d);
      if old(Labelled()) {
        ChopPreservesLabels(t, b, e, d);
      }
    }
  }

  /**
    Chop's first pair of loops: one fragment [iv.begin, b) per left hanger,
    labelled with the filter when it is truthy and with the hanger's own
    data otherwise.
   */
  method CollectLeftStubs(hits: set<Interval>, b: int, d: Option<string>) returns (stubs: set<Interval>)
    ensures stubs == LeftStubs(hits, b, d)
  {
    stubs := {};
    var todo := hits;
    while todo != {}
      invariant todo <= hits
      invariant stubs == LeftStubs(hits - todo, b, d)
      decreases |todo|
    {
      var iv :| iv in todo;
      if Truthy(d) {
        stubs := stubs + {Interval(iv.begin, b, d)};
      } else {
        stubs := stubs + {Interval(iv.begin, b, iv.data)};
      }
      todo := todo - {iv};
    }
  }

  /** Chop's second pair of loops: one fragment [e, iv.end) per right hanger. */
  method CollectRightStubs(hits: set<Interval>, e: int, d: Option<string>) returns (stubs: set<Interval>)
    ensures stubs == RightStubs(hits, e, d)
  {
    stubs := {};
    var todo := hits;
    while todo != {}
      invariant todo <= hits
      invariant stubs == RightStubs(hits - todo, e, d)
      decreases |todo|
    {
      var iv :| iv in todo;
      if Truthy(d) {
        stubs := stubs + {Interval(e, iv.end, d)};
      } else {
        stubs := stubs + {Interval(e, iv.end, iv.data)};
      }
      todo := todo - {iv};
    }
  }
}

=== FILE: intervals.dfy ===
/**
  The interval set behind the server's index, as values.

  The index is a set of (begin, end, data) triples; the balanced tree and the
  boundary table of the `intervaltree` library are replaced by the set itself
  and by the set of its begin/end values.  This module holds the queries
  (`At`, `Overlap`, `Envelop`) and the specification of `chop` (`Chopped`),
  with the lemmas that state what chop achieves.
 */
module Intervals {
  import opened Wrappers

  /** A half-open interval [begin, end) with its optional payload. */
  datatype Interval = Interval(begin: int, end: int, data: Option<string>)

  /** Python truthiness of an optional label argument: None and "" are false. */
  predicate Truthy(d: Option<string>)
  {
    d.Some? && d.value != ""
  }

  /** The library refuses to store an interval with begin >= end. */
  predicate NonEmpty(iv: Interval)
  {
    iv.begin < iv.end
  }

  predicate WellFormed(t: set<Interval>)
  {
    forall iv :: iv in t ==> NonEmpty(iv)
  }

  predicate ContainsPoint(iv: Interval, x: int)
  {
    iv.begin <= x < iv.end
  }

  predicate Overlaps(iv: Interval, b: int, e: int)
  {
    iv.begin < e && iv.end > b
  }

  predicate EnclosedIn(iv: Interval, b: int, e: int)
  {
    b <= iv.begin && iv.end <= e
  }

  /** The label filter of envelop: a falsy label selects every interval. */
  predicate LabelFilter(iv: Interval, d: Option<string>)
  {
    !Truthy(d) || iv.data == d
  }

  /** The library's point query `at(x)`. */
  function At(t: set<Interval>, x: int): (r: set<Interval>)
    ensures r <= t
    ensures forall iv :: iv in r ==> ContainsPoint(iv, x)
    ensures forall iv :: iv in t && ContainsPoint(iv, x) ==> iv in r
  {
    set iv | iv in t && ContainsPoint(iv, x)
  }

  /** The library's range query `overlap(b, e)`; an empty or inverted range finds nothing. */
  function Overlap(t: set<Interval>, b: int, e: int): (r: set<Interval>)
    ensures r <= t
    ensures b < e ==> forall iv :: iv in t && Overlaps(iv, b, e) ==> iv in r
    ensures forall iv :: iv in r ==> Overlaps(iv, b, e) && b < e
  {
    if b >= e then {} else set iv | iv in t && Overlaps(iv, b, e)
  }

  /** What envelop is meant to return: the stored intervals inside [b, e), label-filtered. */
  function Enclosed(t: set<Interval>, b: int, e: int, d: Option<string>): set<Interval>
  {
    set iv | iv in t && EnclosedIn(iv, b, e) && LabelFilter(iv, d)
  }

  /** Every begin and end value in use: the keys of the library's boundary table. */
  function Boundaries(t: set<Interval>): set<int>
  {
    (set iv | iv in t :: iv.begin) + (set iv | iv in t :: iv.end)
  }

  /** The intervals found by point queries at each point of `ps`. */
  function AtAny(t: set<Interval>, ps: set<int>): set<Interval>
  {
    set iv, p | iv in t && p in ps && ContainsPoint(iv, p) :: iv
  }

  /** The candidates envelop gathers: hits at `b` and at every boundary in [b, e). */
  function EnvelopCandidates(t: set<Interval>, b: int, e: int): set<Interval>
  {
    At(t, b) + AtAny(t, set p | p in Boundaries(t) && b <= p < e)
  }

  /** On a well-formed set every enclosed interval is among the candidates, found at its own begin. */
  lemma CandidatesCoverEnclosed(t: set<Interval>, b: int, e: int, d: Option<string>)
    requires WellFormed(t)
    ensures Enclosed(t, b, e, d) <= EnvelopCandidates(t, b, e)
  {
    var ps := set p | p in Boundaries(t) && b <= p < e;
    forall iv | iv in Enclosed(t, b, e, d)
      ensures iv in AtAny(t, ps)
    {
      assert iv.begin in (set iv | iv in t :: iv.begin);
      assert iv.begin in ps;
      assert ContainsPoint(iv, iv.begin);
    }
  }

  /**
    The envelop query, by the library's strategy: gather candidates from the
    boundary points, then keep those fully inside [b, e).  It never returns
    more than the enclosed intervals, and on a well-formed set it returns all
    of them.
   */
  function Envelop(t: set<Interval>, b: int, e: int, d: Option<string>): (r: set<Interval>)
    ensures r <= Enclosed(t, b, e, d)
    ensures WellFormed(t) ==> r == Enclosed(t, b, e, d)
    ensures t == {} || b >= e ==> r == {}
  {
    if t == {} then {}
    else if b >= e then {}
    else
      var candidates := EnvelopCandidates(t, b, e);
      var r := if Truthy(d) then set iv | iv in candidates && EnclosedIn(iv, b, e) && iv.data == d
               else set iv | iv in candidates && EnclosedIn(iv, b, e);
      if WellFormed(t) then CandidatesCoverEnclosed(t, b, e, d); r else r
  }

  /** Intervals labelled `d` that start before `b` and reach past it: chop's left hangers. */
  function LeftHangers(t: set<Interval>, b: int, d: Option<string>): (r: set<Interval>)
    ensures r <= t
    ensures forall iv :: iv in r ==> iv.begin < b < iv.end && iv.data == d
    ensures forall iv :: iv in t && iv.begin < b < iv.end && iv.data == d ==> iv in r
  {
    set iv | iv in At(t, b) && iv.begin < b && iv.data == d
  }

  /** Intervals labelled `d` that contain `e` and end after it: chop's right hangers. */
  function RightHangers(t: set<Interval>, e: int, d: Option<string>): (r: set<Interval>)
    ensures r <= t
    ensures forall iv :: iv in r ==> iv.begin <= e < iv.end && iv.data == d
    ensures forall iv :: iv in t && iv.begin <= e < iv.end && iv.data == d ==> iv in r
  {
    set iv | iv in At(t, e) && iv.end > e && iv.data == d
  }

  /** The label a trimmed fragment carries: the filter when truthy, the original's otherwise. */
  function FragmentLabel(iv: Interval, d: Option<string>): Option<string>
  {
    if Truthy(d) then d else iv.data
  }

  function LeftStubs(hangers: set<Interval>, b: int, d: Option<string>): set<Interval>
  {
    set iv | iv in hangers :: Interval(iv.begin, b, FragmentLabel(iv, d))
  }

  function RightStubs(hangers: set<Interval>, e: int, d: Option<string>): set<Interval>
  {
    set iv | iv in hangers :: Interval(e, iv.end, FragmentLabel(iv, d))
  }

  /** The set chop(b, e, d) leaves behind. */
  function Chopped(t: set<Interval>, b: int, e: int, d: Option<string>): set<Interval>
  {
    var lh := LeftHangers(t, b, d);
    var rh := RightHangers(t, e, d);
    (t - Enclosed(t, b, e, d) - lh - rh) + LeftStubs(lh, b, d) + RightStubs(rh, e, d)
  }

  /** Labelled `d` and containing `x`: the points a label covers. */
  ghost predicate Covers(t: set<Interval>, d: Option<string>, x: int)
  {
    exists iv :: iv in t && iv.data == d && ContainsPoint(iv, x)
  }

  /**
    Every interval chop adds is a non-empty piece of an interval it removed,
    carrying that interval's own label: the label substitution in the truthy
    branch never changes a label, because hangers are selected by `iv.data == d`.
   */
  lemma {:induction false} ChopFragments(t: set<Interval>, b: int, e: int, d: Option<string>)
    ensures forall iv :: iv in Chopped(t, b, e, d) && iv !in t ==>
      NonEmpty(iv) && iv.data == d &&
      exists o :: o in t && o.data == iv.data && o.begin <= iv.begin && iv.end <= o.end
  {
    var c := Chopped(t, b, e, d);
    var lh := LeftHangers(t, b, d);
    var rh := RightHangers(t, e, d);
    forall iv | iv in c && iv !in t
      ensures NonEmpty(iv) && iv.data == d
      ensures exists o :: o in t && o.data == iv.data && o.begin <= iv.begin && iv.end <= o.end
    {
      if iv in LeftStubs(lh, b, d) {
        var o :| o in lh && iv == Interval(o.begin, b, FragmentLabel(o, d));
      } else {
        assert iv in RightStubs(rh, e, d);
        var o :| o in rh && iv == Interval(e, o.end, FragmentLabel(o, d));
      }
    }
  }

  /** Chop keeps the set well formed: no empty fragment is ever produced. */
  lemma ChopPreservesWellFormed(t: set<Interval>, b: int, e: int, d: Option<string>)
    requires WellFormed(t)
    ensures WellFormed(Chopped(t, b, e, d))
  {
    ChopFragments(t, b, e, d);
  }

  /** Chop keeps every interval labelled when every interval was labelled. */
  lemma ChopPreservesLabels(t: set<Interval>, b: int, e: int, d: Option<string>)
    requires forall iv :: iv in t ==> iv.data.Some?
    ensures forall iv :: iv in Chopped(t, b, e, d) ==> iv.data.Some?
  {
    ChopFragments(t, b, e, d);
  }

  /** After chop(b, e, d) with b < e, no interval labelled `d` overlaps [b, e). */
  lemma {:induction false} ChopClearsWindow(t: set<Interval>, b: int, e: int, d: Option<string>)
    requires b < e
    ensures forall iv :: iv in Chopped(t, b, e, d) && iv.data == d ==> !Overlaps(iv, b, e)
  {
    var c := Chopped(t, b, e, d);
    var lh := LeftHangers(t, b, d);
    var rh := RightHangers(t, e, d);
    forall iv | iv in c && iv.data == d
      ensures !Overlaps(iv, b, e)
    {
      if iv in LeftStubs(lh, b, d) {
      } else if iv in RightStubs(rh, e, d) {
      } else {
        assert iv in t && iv !in Enclosed(t, b, e, d) && iv !in lh && iv !in rh;
      }
    }
  }

  /**
    Chop trims rather than deletes: with b < e, label `d` covers a point after
    chop(b, e, d) exactly when it covered it before and the point is outside
    [b, e).
   */
  lemma {:induction false} ChopCoverage(t: set<Interval>, b: int, e: int, d: Option<string>, x: int)
    requires WellFormed(t) && b < e
    ensures Covers(Chopped(t, b, e, d), d, x) <==> Covers(t, d, x) && !(b <= x < e)
  {
    var c := Chopped(t, b, e, d);
    var lh := LeftHangers(t, b, d);
    var rh := RightHangers(t, e, d);
    if Covers(c, d, x) {
      var iv :| iv in c && iv.data == d && ContainsPoint(iv, x);
      ChopClearsWindow(t, b, e, d);
      assert !Overlaps(iv, b, e);
      if iv !in t {
        ChopFragments(t, b, e, d);
        var o :| o in t && o.data == iv.data && o.begin <= iv.begin && iv.end <= o.end;
        assert ContainsPoint(o, x);
      }
    }
    if Covers(t, d, x) && !(b <= x < e) {
      var iv :| iv in t && iv.data == d && ContainsPoint(iv, x);
      if x < b && iv.end > b {
        assert iv in At(t, b);
        var s := Interval(iv.begin, b, FragmentLabel(iv, d));
        assert s in LeftStubs(lh, b, d);
        assert s in c && ContainsPoint(s, x);
      } else if x >= e && iv.begin <= e {
        assert iv in At(t, e);
        var s := Interval(e, iv.end, FragmentLabel(iv, d));
        assert s in RightStubs(rh, e, d);
        assert s in c && ContainsPoint(s, x);
      } else {
        assert iv !in lh && iv !in rh && iv !in Enclosed(t, b, e, d);
      }
    }
  }

  /** With a truthy label, chop leaves every interval of another label exactly as it was. */
  lemma {:induction false} ChopKeepsOtherLabels(t: set<Interval>, b: int, e: int, d: Option<string>)
    requires Truthy(d)
    ensures forall iv: Interval :: iv.data != d ==> (iv in Chopped(t, b, e, d) <==> iv in t)
  {
    var c := Chopped(t, b, e, d);
    var lh := LeftHangers(t, b, d);
    var rh := RightHangers(t, e, d);
    forall iv: Interval | iv.data != d
      ensures iv in c <==> iv in t
    {
      assert iv !in LeftStubs(lh, b, d);
      assert iv !in RightStubs(rh, e, d);
    }
  }

  /**
    With a falsy label (None), the enclosed intervals of every label are
    removed, but only intervals whose own data equals the filter are trimmed:
    a labelled interval that partly overlaps the window survives unchanged.
   */
  lemma {:induction false} ChopWithoutLabel(t: set<Interval>, b: int, e: int, d: Option<string>)
    requires !Truthy(d)
    ensures forall iv: Interval :: iv.data != d ==>
      (iv in Chopped(t, b, e, d) <==> iv in t && !EnclosedIn(iv, b, e))
  {
    var c := Chopped(t, b, e, d);
    var lh := LeftHangers(t, b, d);
    var rh := RightHangers(t, e, d);
    forall iv: Interval | iv.data != d
      ensures iv in c <==> iv in t && !EnclosedIn(iv, b, e)
    {
      assert forall o :: o in lh ==> FragmentLabel(o, d) == d;
      assert forall o :: o in rh ==> FragmentLabel(o, d) == d;
      assert iv !in LeftStubs(lh, b, d);
      assert iv !in RightStubs(rh, e, d);
    }
  }

  /**
    On a set whose intervals all carry a label, chop without a label trims
    nothing: no interval has data None, so there are no hangers, and only the
    enclosed intervals of every label go.
   */
  lemma {:induction false} UnnamedChopOnlyRemoves(t: set<Interval>, b: int, e: int)
    requires forall iv :: iv in t ==> iv.data.Some?
    ensures Chopped(t, b, e, None) == t - Enclosed(t, b, e, None)
  {
    assert LeftHangers(t, b, None) == {};
    assert RightHangers(t, e, None) == {};
  }
}

=== FILE: labels.dfy ===
/**
  The label lists FIND sends back: Python's ordering of `str` values, its
  `sorted`, and `" ".join`, with the properties the reply relies on.
 */
module Labels {

  /** Python's `a <= b` on str: lexicographic by code point, a prefix first. */
  predicate LexLe(a: string, b: string)
    decreases |a|
  {
    |a| == 0 || (|b| > 0 && (a[0] < b[0] || (a[0] == b[0] && LexLe(a[1..], b[1..]))))
  }

  lemma {:induction false} LexLeTotal(a: string, b: string)
    ensures LexLe(a, b) || LexLe(b, a)
    decreases |a|
  {
    if |a| > 0 && |b| > 0 && a[0] == b[0] {
      LexLeTotal(a[1..], b[1..]);
    }
  }

  lemma {:induction false} LexLeReflexive(a: string)
    ensures LexLe(a, a)
    decreases |a|
  {
    if |a| > 0 {
      LexLeReflexive(a[1..]);
    }
  }

  lemma {:induction false} LexLeTransitive(a: string, b: string, c: string)
    requires LexLe(a, b) && LexLe(b, c)
    ensures LexLe(a, c)
    decreases |a|
  {
    if |a| > 0 && a[0] == b[0] && b[0] == c[0] {
      LexLeTransitive(a[1..], b[1..], c[1..]);
    }
  }

  lemma {:induction false} LexLeAntisymmetric(a: string, b: string)
    requires LexLe(a, b) && LexLe(b, a)
    ensures a == b
    decreases |a|
  {
    if |a| > 0 {
      LexLeAntisymmetric(a[1..], b[1..]);
      assert a == [a[0]] + a[1..] && b == [b[0]] + b[1..];
    }
  }

  predicate Sorted(s: seq<string>)
  {
    forall i, j :: 0 <= i < j < |s| ==> LexLe(s[i], s[j])
  }

  /** Every element of `s` is at least `x`. */
  predicate AllAtLeast(x: string, s: seq<string>)
  {
    forall k :: 0 <= k < |s| ==> LexLe(x, s[k])
  }

  lemma AllAtLeastByMultiset(x: string, s: seq<string>, t: seq<string>)
    requires AllAtLeast(x, s) && multiset(t) <= multiset(s)
    ensures AllAtLeast(x, t)
  {
    forall k | 0 <= k < |t|
      ensures LexLe(x, t[k])
    {
      assert t[k] in multiset(t);
      assert t[k] in multiset(s);
      var j :| 0 <= j < |s| && s[j] == t[k];
    }
  }

  /** One insertion step of the sort: `x` placed into sorted `s`. */
  function InsertSorted(x: string, s: seq<string>): (r: seq<string>)
    requires Sorted(s)
    ensures Sorted(r)
    ensures multiset(r) == multiset(s) + multiset{x}
    decreases |s|
  {
    if s == [] then [x]
    else if LexLe(x, s[0]) then
      assert AllAtLeast(x, s) by {
        forall k | 0 <= k < |s| ensures LexLe(x, s[k]) {
          if k > 0 { LexLeTransitive(x, s[0], s[k]); }
        }
      }
      [x] + s
    else
      var rest := InsertSorted(x, s[1..]);
      assert AllAtLeast(s[0], rest) by {
        LexLeTotal(x, s[0]);
        assert AllAtLeast(s[0], s[1..] + [x]);
        assert multiset(rest) == multiset(s[1..] + [x]);
        AllAtLeastByMultiset(s[0], s[1..] + [x], rest);
      }
      assert s == [s[0]] + s[1..];
      [s[0]] + rest
  }

  /** Python's `sorted` on a list of str. */
  function Sort(xs: seq<string>): (r: seq<string>)
    ensures Sorted(r)
    ensures multiset(r) == multiset(xs)
    decreases |xs|
  {
    if xs == [] then []
    else
      assert xs == [xs[0]] + xs[1..];
      InsertSorted(xs[0], Sort(xs[1..]))
  }

  /** Two sorted sequences holding the same strings start with the same one. */
  lemma SortedSameHead(a: seq<string>, b: seq<string>)
    requires Sorted(a) && Sorted(b) && a != []
    requires multiset(a) == multiset(b)
    ensures b != [] && a[0] == b[0]
  {
    assert a[0] in multiset(b);
    assert b[0] in multiset(a);
    var j :| 0 <= j < |b| && b[j] == a[0];
    var i :| 0 <= i < |a| && a[i] == b[0];
    LexLeReflexive(a[0]);
    assert LexLe(b[0], a[0]) by { if j > 0 { assert LexLe(b[0], b[j]); } }
    assert LexLe(a[0], b[0]) by { if i > 0 { assert LexLe(a[0], a[i]); } }
    LexLeAntisymmetric(a[0], b[0]);
  }

  /** Removing equal heads from sequences with equal multisets leaves equal multisets. */
  lemma SameBagTails(a: seq<string>, b: seq<string>)
    requires a != [] && b != [] && a[0] == b[0]
    requires multiset(a) == multiset(b)
    ensures multiset(a[1..]) == multiset(b[1..])
  {
    assert a == [a[0]] + a[1..] && b == [b[0]] + b[1..];
    assert multiset(a[1..]) == multiset(a) - multiset{a[0]};
    assert multiset(b[1..]) == multiset(b) - multiset{b[0]};
  }

  /** A sorted arrangement of a multiset of labels is unique: the reply depends only on the labels. */
  lemma {:induction false} SortedUnique(a: seq<string>, b: seq<string>)
    requires Sorted(a) && Sorted(b)
    requires multiset(a) == multiset(b)
    ensures a == b
    decreases |a|
  {
    if a != [] {
      SortedSameHead(a, b);
      SameBagTails(a, b);
      SortedUnique(a[1..], b[1..]);
      assert a == [a[0]] + a[1..] && b == [b[0]] + b[1..];
    } else {
      assert |multiset(b)| == 0;
    }
  }

  /** Python's `" ".join(words)`. */
  function Join(words: seq<string>): string
    decreases |words|
  {
    if |words| == 0 then ""
    else if |words| == 1 then words[0]
    else words[0] + " " + Join(words[1..])
  }

  /** Index of the first space in `s`, or |s| when there is none. */
  function FirstSpace(s: string): (i: nat)
    ensures i <= |s|
    ensures forall k :: 0 <= k < i ==> s[k] != ' '
    ensures i < |s| ==> s[i] == ' '
  {
    if s == [] then 0
    else if s[0] == ' ' then 0
    else 1 + FirstSpace(s[1..])
  }

  /** Python's `s.split(" ")`: the pieces between single spaces. */
  function Split(s: string): seq<string>
    decreases |s|
  {
    var i := FirstSpace(s);
    if i == |s| then [s] else [s[..i]] + Split(s[i + 1..])
  }

  predicate NoSpace(w: string)
  {
    forall k :: 0 <= k < |w| ==> w[k] != ' '
  }

  /** A client splitting the reply on spaces gets the labels back. */
  lemma {:induction false} SplitJoin(words: seq<string>)
    requires words != []
    requires forall k :: 0 <= k < |words| ==> NoSpace(words[k])
    ensures Split(Join(words)) == words
    decreases |words|
  {
    var w := words[0];
    if |words| == 1 {
      assert NoSpace(w);
      FirstSpaceOfNoSpace(w, "");
      assert w + "" == w;
    } else {
      var rest := Join(words[1..]);
      var s := w + " " + rest;
      assert NoSpace(w);
      FirstSpaceOfNoSpace(w, " " + rest);
      assert w + (" " + rest) == s;
      assert s[..|w|] == w;
      assert s[|w| + 1..] == rest;
      SplitJoin(words[1..]);
      assert words == [w] + words[1..];
    }
  }

  lemma {:induction false} FirstSpaceOfNoSpace(w: string, tail: string)
    requires NoSpace(w)
    requires tail == [] || tail[0] == ' '
    ensures FirstSpace(w + tail) == |w|
    decreases |w|
  {
    if w != [] {
      assert (w + tail)[1..] == w[1..] + tail;
      FirstSpaceOfNoSpace(w[1..], tail);
    }
  }
}

=== FILE: protocol.dfy ===
/**
  The command validator: a line, already split on whitespace, is accepted or
  rejected, and a rejection carries the one reply the server sends.
 */
module Protocol {
  import opened Wrappers

  /** The largest value an integer argument may take: 2^32 - 1. */
  const MAX_INT: int := 0x1_0000_0000 - 1

  const INVALID_COMMAND := "ERROR invalid command\n"
  const INVALID_ADD := "ERROR invalid ADD command\n"
  const INVALID_DEL := "ERROR invalid DEL command\n"
  const INVALID_FIND := "ERROR invalid FIND command\n"
  const NAME_NOT_STRING := "ERROR name arg must be a string\n"

  function NotAnInteger(place: string): string
  {
    "ERROR " + place + " arg must be an integer\n"
  }

  function InvalidInteger(tok: string): string
  {
    "ERROR invalid integer \"" + tok + "\"\n"
  }

  // ---------------------------------------------------------------------------
  // Integers

  predicate IsDigit(c: char)
  {
    '0' <= c <= '9'
  }

  predicate AllDigits(s: string)
  {
    |s| > 0 && forall i :: 0 <= i < |s| ==> IsDigit(s[i])
  }

  /** The value of a run of decimal digits, most significant first. */
  function DigitsValue(s: string): (v: int)
    requires forall i :: 0 <= i < |s| ==> IsDigit(s[i])
    ensures v >= 0
    decreases |s|
  {
    if s == [] then 0
    else
      assert IsDigit(s[|s| - 1]);
      DigitsValue(s[..|s| - 1]) * 10 + (s[|s| - 1] as int - '0' as int)
  }

  /**
    Python's `int(tok)` on a whitespace-free token: an optional sign, then
    decimal digits.  A token without a digit is never a number, only a
    leading minus makes a negative one, and plain digits always are a number.
   */
  function ParseInt(s: string): (r: Option<int>)
    ensures r.Some? <==> AllDigits(s) || (|s| > 0 && (s[0] == '+' || s[0] == '-') && AllDigits(s[1..]))
    ensures AllDigits(s) ==> r == Some(DigitsValue(s))
    ensures (forall i :: 0 <= i < |s| ==> !IsDigit(s[i])) ==> r.None?
    ensures r.Some? && r.value < 0 ==> s[0] == '-'
    ensures AllDigits(s) ==> r.Some? && r.value >= 0
    ensures |s| > 0 && s[0] == '+' && AllDigits(s[1..]) ==> r == ParseInt(s[1..])
    ensures |s| > 0 && s[0] == '-' && AllDigits(s[1..]) ==> r == Some(-ParseInt(s[1..]).value)
  {
    if |s| > 0 && (s[0] == '+' || s[0] == '-') then
      if AllDigits(s[1..]) then
        Some(if s[0] == '-' then -DigitsValue(s[1..]) else DigitsValue(s[1..]))
      else None
    else if AllDigits(s) then Some(DigitsValue(s))
    else None
  }

  /** Python's `str(n)` for a natural number: its decimal digits. */
  function DecimalString(n: nat): (s: string)
    ensures AllDigits(s)
    decreases n
  {
    var last := ['0' + ((n % 10) as char)];
    if n < 10 then last else DecimalString(n / 10) + last
  }

  /** Reading back the digits of `n` gives `n`. */
  lemma {:induction false} DigitsValueOfDecimal(n: nat)
    ensures DigitsValue(DecimalString(n)) == n
    decreases n
  {
    var s := DecimalString(n);
    if n >= 10 {
      DigitsValueOfDecimal(n / 10);
      assert s[..|s| - 1] == DecimalString(n / 10);
    }
  }

  /** `int(str(n)) == n`, `int("+" + str(n)) == n` and `int("-" + str(n)) == -n`. */
  lemma ParseIntRoundTrip(n: nat)
    ensures ParseInt(DecimalString(n)) == Some(n)
    ensures ParseInt("+" + DecimalString(n)) == Some(n)
    ensures ParseInt("-" + DecimalString(n)) == Some(-(n as int))
  {
    DigitsValueOfDecimal(n);
    var s := DecimalString(n);
    assert ('0' <= s[0] <= '9');
    assert ("+" + s)[1..] == s;
    assert ("-" + s)[1..] == s;
  }

  /** A token the server accepts as a number: an integer in [0, MAX_INT]. */
  predicate UInt32Token(tok: string)
  {
    ParseInt(tok).Some? && 0 <= ParseInt(tok).value <= MAX_INT
  }

  /** The result of `validate_numeric_arg`: the flag and the bytes to send. */
  datatype ArgCheck = ArgCheck(ok: bool, response: string)

  /**
    Accepts an integer in [0, MAX_INT] with an empty response.  A token that
    is not an integer is reported with its place ("first", "second"); one out
    of range is reported with the token itself, whatever the place.
   */
  function ValidateNumericArg(tok: string, place: string): (r: ArgCheck)
    ensures r.ok <==> UInt32Token(tok)
    ensures r.ok ==> r.response == ""
    ensures ParseInt(tok).None? ==> r.response == NotAnInteger(place)
    ensures ParseInt(tok).Some? && !r.ok ==> r.response == InvalidInteger(tok)
  {
    match ParseInt(tok)
    case None => ArgCheck(false, NotAnInteger(place))
    case Some(i) =>
      if i < 0 || i > MAX_INT then ArgCheck(false, InvalidInteger(tok))
      else ArgCheck(true, "")
  }

  /** The decimal form of a number, bare or after `+`, is accepted exactly when it is at most MAX_INT. */
  lemma NumericArgOfDecimal(n: nat, place: string)
    ensures n <= MAX_INT ==> ValidateNumericArg(DecimalString(n), place) == ArgCheck(true, "")
    ensures n > MAX_INT ==>
      ValidateNumericArg(DecimalString(n), place) == ArgCheck(false, InvalidInteger(DecimalString(n)))
    ensures n > 0 ==>
      ValidateNumericArg("-" + DecimalString(n), place) == ArgCheck(false, InvalidInteger("-" + DecimalString(n)))
    ensures n <= MAX_INT ==> ValidateNumericArg("+" + DecimalString(n), place) == ArgCheck(true, "")
    ensures n > MAX_INT ==>
      ValidateNumericArg("+" + DecimalString(n), place) == ArgCheck(false, InvalidInteger("+" + DecimalString(n)))
  {
    ParseIntRoundTrip(n);
  }

  // ---------------------------------------------------------------------------
  // Labels

  /** The characters a label may use: [A-Za-z0-9_-]. */
  predicate LabelChar(c: char)
  {
    ('a' <= c <= 'z') || ('A' <= c <= 'Z') || ('0' <= c <= '9') || c == '-' || c == '_'
  }

  predicate LabelToken(tok: string)
  {
    forall i :: 0 <= i < |tok| ==> LabelChar(tok[i])
  }

  /** Searches for a character outside the label set; true when there is none. */
  function ValidateTextArg(s: string): (r: bool)
    ensures r <==> forall i :: 0 <= i < |s| ==> LabelChar(s[i])
    decreases |s|
  {
    if s == [] then true
    else if !LabelChar(s[0]) then false
    else ValidateTextArg(s[1..])
  }

  // ---------------------------------------------------------------------------
  // Commands

  /** A command's verdict: accepted, or rejected with the reply sent (if any). */
  datatype Verdict = Verdict(valid: bool, reply: Option<string>)

  const Accept := Verdict(true, None)

  function Reject(msg: string): Verdict
  {
    Verdict(false, Some(msg))
  }

  /** The command grammar, stated declaratively. */
  predicate AddSyntax(tokens: seq<string>)
  {
    |tokens| == 4 && UInt32Token(tokens[1]) && UInt32Token(tokens[2]) && LabelToken(tokens[3])
  }

  predicate DelSyntax(tokens: seq<string>)
  {
    (|tokens| == 3 || |tokens| == 4) && UInt32Token(tokens[1]) && UInt32Token(tokens[2]) &&
    (|tokens| == 4 ==> LabelToken(tokens[3]))
  }

  predicate FindSyntax(tokens: seq<string>)
  {
    (|tokens| == 2 || |tokens| == 3) && UInt32Token(tokens[1]) &&
    (|tokens| == 3 ==> UInt32Token(tokens[2]))
  }

  predicate WellFormedCommand(tokens: seq<string>)
  {
    |tokens| > 0 &&
    ((tokens[0] == "ADD" && AddSyntax(tokens)) ||
     (tokens[0] == "DEL" && DelSyntax(tokens)) ||
     (tokens[0] == "FIND" && FindSyntax(tokens)))
  }

  /** Every reply a rejection can carry. */
  predicate DocumentedError(msg: string, tokens: seq<string>)
  {
    msg in {INVALID_COMMAND, INVALID_ADD, INVALID_DEL, INVALID_FIND, NAME_NOT_STRING,
            NotAnInteger("first"), NotAnInteger("second")} ||
    exists k :: 1 <= k < |tokens| && msg == InvalidInteger(tokens[k])
  }

  /**
    ADD needs exactly four tokens, then a first number, a second number and
    a label, checked in that order; only the first failure is reported.
   */
  function ValidateAdd(tokens: seq<string>): (v: Verdict)
    ensures v.valid <==> AddSyntax(tokens)
    ensures v.valid ==> v.reply == None
    ensures |tokens| != 4 ==> v == Reject(INVALID_ADD)
    ensures |tokens| == 4 && !UInt32Token(tokens[1]) ==>
      v == Reject(ValidateNumericArg(tokens[1], "first").response)
    ensures |tokens| == 4 && UInt32Token(tokens[1]) && !UInt32Token(tokens[2]) ==>
      v == Reject(ValidateNumericArg(tokens[2], "second").response)
    ensures |tokens| == 4 && UInt32Token(tokens[1]) && UInt32Token(tokens[2]) && !LabelToken(tokens[3]) ==>
      v == Reject(NAME_NOT_STRING)
  {
    if |tokens| != 4 then Reject(INVALID_ADD)
    else
      var first := ValidateNumericArg(tokens[1], "first");
      if !first.ok then Reject(first.response)
      else
        var second := ValidateNumericArg(tokens[2], "second");
        if !second.ok then Reject(second.response)
        else if !ValidateTextArg(tokens[3]) then Reject(NAME_NOT_STRING)
        else Accept
  }

  /** DEL needs three or four tokens: two numbers, then an optional label. */
  function ValidateDelete(tokens: seq<string>): (v: Verdict)
    ensures v.valid <==> DelSyntax(tokens)
    ensures v.valid ==> v.reply == None
    ensures |tokens| != 3 && |tokens| != 4 ==> v == Reject(INVALID_DEL)
    ensures (|tokens| == 3 || |tokens| == 4) && !UInt32Token(tokens[1]) ==>
      v == Reject(ValidateNumericArg(tokens[1], "first").response)
    ensures (|tokens| == 3 || |tokens| == 4) && UInt32Token(tokens[1]) && !UInt32Token(tokens[2]) ==>
      v == Reject(ValidateNumericArg(tokens[2], "second").response)
    ensures |tokens| == 4 && UInt32Token(tokens[1]) && UInt32Token(tokens[2]) && !LabelToken(tokens[3]) ==>
      v == Reject(NAME_NOT_STRING)
  {
    if |tokens| != 3 && |tokens| != 4 then Reject(INVALID_DEL)
    else
      var first := ValidateNumericArg(tokens[1], "first");
      if !first.ok then Reject(first.response)
      else
        var second := ValidateNumericArg(tokens[2], "second");
        if !second.ok then Reject(second.response)
        else if |tokens| > 3 && !ValidateTextArg(tokens[3]) then Reject(NAME_NOT_STRING)
        else Accept
  }

  /** FIND needs two or three tokens: a point, or the two ends of a range. */
  function ValidateFind(tokens: seq<string>): (v: Verdict)
    ensures v.valid <==> FindSyntax(tokens)
    ensures v.valid ==> v.reply == None
    ensures |tokens| != 2 && |tokens| != 3 ==> v == Reject(INVALID_FIND)
    ensures (|tokens| == 2 || |tokens| == 3) && !UInt32Token(tokens[1]) ==>
      v == Reject(ValidateNumericArg(tokens[1], "first").response)
    ensures |tokens| == 3 && UInt32Token(tokens[1]) && !UInt32Token(tokens[2]) ==>
      v == Reject(ValidateNumericArg(tokens[2], "second").response)
  {
    if |tokens| != 2 && |tokens| != 3 then Reject(INVALID_FIND)
    else
      var first := ValidateNumericArg(tokens[1], "first");
      if !first.ok then Reject(first.response)
      else if |tokens| > 2 then
        var second := ValidateNumericArg(tokens[2], "second");
        if !second.ok then Reject(second.response) else Accept
      else Accept
  }

  /**
    Dispatches on the verb.  An empty line is rejected without a reply; an
    unknown verb is rejected with INVALID_COMMAND; an accepted command gets
    no reply from validation, a rejected one exactly one documented error.
   */
  function ValidateData(tokens: seq<string>): (v: Verdict)
    ensures v.valid <==> WellFormedCommand(tokens)
    ensures v.valid ==> v.reply == None
    ensures tokens == [] ==> v == Verdict(false, None)
    ensures tokens != [] && tokens[0] !in {"ADD", "DEL", "FIND"} ==> v == Reject(INVALID_COMMAND)
    ensures tokens != [] && tokens[0] == "ADD" ==> v == ValidateAdd(tokens)
    ensures tokens != [] && tokens[0] == "DEL" ==> v == ValidateDelete(tokens)
    ensures tokens != [] && tokens[0] == "FIND" ==> v == ValidateFind(tokens)
    ensures tokens != [] && !v.valid ==> v.reply.Some? && DocumentedError(v.reply.value, tokens)
  {
    if |tokens| == 0 then Verdict(false, None)
    else if tokens[0] == "ADD" then ValidateAdd(tokens)
    else if tokens[0] == "DEL" then ValidateDelete(tokens)
    else if tokens[0] == "FIND" then ValidateFind(tokens)
    else Reject(INVALID_COMMAND)
  }
}

=== FILE: scenarios.dfy ===
/** Concrete command lines and their outcomes, taken from the project's test suite. */
module Scenarios {
  import opened Wrappers
  import opened Intervals
  import opened Labels
  import opened Protocol
  import opened Index
  import opened Server

  /** `validate_numeric_arg` on the tests' tokens; 4294967296 is NumericArgOfDecimal at 2^32. */
  lemma NumericArgExamples()
    ensures ValidateNumericArg("-1", "first") == ArgCheck(false, "ERROR invalid integer \"-1\"\n")
    ensures ValidateNumericArg("blah", "first") == ArgCheck(false, NotAnInteger("first"))
    ensures ValidateNumericArg("blah", "second") == ArgCheck(false, NotAnInteger("second"))
    ensures ValidateNumericArg("1", "first") == ArgCheck(true, "")
  {
    assert !IsDigit("blah"[0]);
  }

  lemma TextArgExamples()
    ensures !ValidateTextArg("bad arg with spaces")
    ensures !ValidateTextArg("badvar!")
    ensures ValidateTextArg("goodarg")
  {
    assert !LabelChar("badvar!"[6]);
    assert !LabelChar("bad arg with spaces"[3]);
  }

  /** ADD with the wrong number of tokens, whatever they hold. */
  lemma AddArityExample()
    ensures ValidateData(["ADD", "1", "2", "3", "4"]) == Reject(INVALID_ADD)
  {
  }

  lemma AddFirstArgExample()
    ensures ValidateData(["ADD", "one", "2", "three"]) == Reject(NotAnInteger("first"))
  {
    assert ParseInt("one").None? by { assert !IsDigit("one"[0]); }
  }

  /** A token that starts with a digit but goes on with a letter is not an integer either. */
  lemma MixedTokenExample()
    ensures ValidateData(["ADD", "1a", "2", "x"]) == Reject(NotAnInteger("first"))
  {
    assert !IsDigit("1a"[1]);
    assert ParseInt("1a").None?;
  }

  lemma AddSecondArgExample()
    ensures ValidateData(["ADD", "1", "two", "three"]) == Reject(NotAnInteger("second"))
  {
    assert ParseInt("two").None? by { assert !IsDigit("two"[0]); }
    assert UInt32Token("1");
  }

  lemma AddNameExample()
    ensures ValidateData(["ADD", "1", "2", "badvar!"]) == Reject(NAME_NOT_STRING)
  {
    assert UInt32Token("1") && UInt32Token("2");
    assert !LabelToken("badvar!") by { assert !LabelChar("badvar!"[6]); }
  }

  lemma OtherRejectionExamples()
    ensures ValidateData(["DEL", "1"]) == Reject(INVALID_DEL)
    ensures ValidateData(["FIND"]) == Reject(INVALID_FIND)
    ensures ValidateData(["BLAH", "1", "2", "var"]) == Reject(INVALID_COMMAND)
    ensures ValidateData([]) == Verdict(false, None)
  {
  }

  /** The lines the validator tests accept, with no reply. */
  lemma AcceptedExamples()
    ensures ValidateData(["ADD", "1", "2", "goodvar"]) == Accept
    ensures ValidateData(["DEL", "1", "2", "goodvar"]) == Accept
    ensures ValidateData(["FIND", "1", "2"]) == Accept
    ensures ValidateData(["ADD", "1", "2", "x"]) == Accept
    ensures ValidateData(["DEL", "1", "2"]) == Accept
    ensures ValidateData(["FIND", "1"]) == Accept
  {
    assert UInt32Token("1") && UInt32Token("2");
    assert LabelToken("goodvar") && LabelToken("x");
  }

  /** The numeric tokens of the handler tests and their values. */
  lemma SessionArgs()
    ensures UInt32Token("1") && Arg("1") == 1
    ensures UInt32Token("2") && Arg("2") == 2
    ensures UInt32Token("3") && Arg("3") == 3
    ensures UInt32Token("5") && Arg("5") == 5
    ensures UInt32Token("7") && Arg("7") == 7
    ensures UInt32Token("10") && Arg("10") == 10
  {
    assert DigitsValue("10"[..1]) == 1;
  }

  /** The command lines the handler tests feed to perform_* are well formed. */
  lemma SessionLinesAccepted()
    ensures WellFormedCommand(["ADD", "1", "5", "x"])
    ensures WellFormedCommand(["ADD", "5", "10", "y"])
    ensures WellFormedCommand(["DEL", "2", "3", "x"])
    ensures WellFormedCommand(["FIND", "3"])
    ensures WellFormedCommand(["FIND", "2", "7"])
    ensures WellFormedCommand(["FIND", "1"])
  {
    SessionArgs();
    assert LabelToken("x") && LabelToken("y");
  }

  /** DEL 2 3 x on [1,5,x] chops [2, 4): one interval spanning the window leaves two fragments. */
  lemma DeletePartialEntry()
    ensures Chopped({Interval(1, 5, Some("x"))}, 2, 4, Some("x")) ==
            {Interval(1, 2, Some("x")), Interval(4, 5, Some("x"))}
  {
    var t := {Interval(1, 5, Some("x"))};
    assert LeftHangers(t, 2, Some("x")) == t;
    assert RightHangers(t, 4, Some("x")) == t;
    assert Enclosed(t, 2, 4, Some("x")) == {};
  }

  /** DEL 1 2 x on [1,2,x] chops [1, 3): the whole interval goes. */
  lemma DeleteEntireEntry()
    ensures Chopped({Interval(1, 2, Some("x"))}, 1, 3, Some("x")) == {}
  {
    var t := {Interval(1, 2, Some("x"))};
    assert LeftHangers(t, 1, Some("x")) == {};
    assert RightHangers(t, 3, Some("x")) == {};
    assert Enclosed(t, 1, 3, Some("x")) == t;
  }

  /** DEL 1 5 x on [1,5,x] and [1,5,y] chops [1, 6) for x only. */
  lemma DeleteNamedEntry()
    ensures Chopped({Interval(1, 5, Some("x")), Interval(1, 5, Some("y"))}, 1, 6, Some("x")) ==
            {Interval(1, 5, Some("y"))}
  {
    var t := {Interval(1, 5, Some("x")), Interval(1, 5, Some("y"))};
    assert LeftHangers(t, 1, Some("x")) == {};
    assert RightHangers(t, 6, Some("x")) == {};
    assert Enclosed(t, 1, 6, Some("x")) == {Interval(1, 5, Some("x"))};
  }

  /**
    DEL 5 2 x on [4,10,x] passes validation and chops the inverted window
    [5, 3): nothing is enclosed, but [4,10,x] hangs over 5 and is cut back
    to [4,5,x].
   */
  lemma DeleteInvertedRange()
    ensures Chopped({Interval(4, 10, Some("x"))}, 5, 3, Some("x")) == {Interval(4, 5, Some("x"))}
  {
    var t := {Interval(4, 10, Some("x"))};
    assert LeftHangers(t, 5, Some("x")) == t;
    assert RightHangers(t, 3, Some("x")) == {};
    assert Enclosed(t, 5, 3, Some("x")) == {};
  }

  /**
    DEL 5 2 x on [1,10,x] chops the inverted window [5, 3): the interval
    hangs over both 5 and 3, so it is replaced by two fragments, [1,5,x]
    and [3,10,x], which overlap each other.
   */
  lemma DeleteInvertedOverlap()
    ensures Chopped({Interval(1, 10, Some("x"))}, 5, 3, Some("x")) ==
            {Interval(1, 5, Some("x")), Interval(3, 10, Some("x"))}
  {
    var t := {Interval(1, 10, Some("x"))};
    assert LeftHangers(t, 5, Some("x")) == t;
    assert RightHangers(t, 3, Some("x")) == t;
    assert Enclosed(t, 5, 3, Some("x")) == {};
  }

  /**
    DEL 2 3 without a name on [1,5,x] chops [2, 4) with no label: [1,5,x]
    hangs into the window, but its data is not None, so it is not trimmed.
   */
  lemma DeleteWithoutName()
    ensures Chopped({Interval(1, 5, Some("x"))}, 2, 4, None) == {Interval(1, 5, Some("x"))}
  {
    var t := {Interval(1, 5, Some("x"))};
    assert LeftHangers(t, 2, None) == {};
    assert RightHangers(t, 4, None) == {};
    assert Enclosed(t, 2, 4, None) == {};
  }

  lemma NoResultsWordsSorted()
    ensures Sorted(["ERROR", "no", "results"])
  {
    assert LexLe("ERROR", "no") && LexLe("no", "results") && LexLe("ERROR", "results");
  }

  lemma NoResultsWordsJoined()
    ensures Join(["ERROR", "no", "results"]) + "\n" == NO_RESULTS
  {
    var words := ["ERROR", "no", "results"];
    assert words[1..][1..] == ["results"];
    assert Join(words[1..]) == "no results";
  }

  /**
    A FIND whose matching labels are ERROR, no and results gets the very
    reply an empty FIND gets.
   */
  lemma NoResultsIsAmbiguous(s: seq<string>)
    requires Sorted(s) && multiset(s) == multiset{"ERROR", "no", "results"}
    ensures Join(s) + "\n" == NO_RESULTS
  {
    NoResultsWordsSorted();
    NoResultsWordsJoined();
    SortedUnique(s, ["ERROR", "no", "results"]);
  }

  lemma TwoLabelsReply(s: seq<string>)
    requires Sorted(s) && multiset(s) == multiset{"x", "y"}
    ensures Join(s) + "\n" == "x y\n"
  {
    assert LexLe("x", "y");
    assert multiset(["x", "y"]) == multiset{"x", "y"};
    SortedUnique(s, ["x", "y"]);
    assert Join(s) == "x y";
  }

  lemma OneLabelReply(s: seq<string>)
    requires multiset(s) == multiset{"x"}
    ensures Join(s) + "\n" == "x\n"
  {
    assert |s| == |multiset(s)| == 1;
    assert s[0] in multiset(s);
    assert Join(s) == "x";
  }

  lemma SessionPointQuery()
    ensures FindMatches({Interval(1, 5, Some("x")), Interval(5, 10, Some("y"))}, ["FIND", "3"]) ==
            {Interval(1, 5, Some("x"))}
  {
    var x, y := Interval(1, 5, Some("x")), Interval(5, 10, Some("y"));
    var tokens := ["FIND", "3"];
    assert FindSyntax(tokens) && Arg(tokens[1]) == 3 by { SessionArgs(); }
    assert FindMatches({x, y}, tokens) == At({x, y}, 3);
    assert x in At({x, y}, 3) && y !in At({x, y}, 3);
  }

  lemma SessionRangeQuery()
    ensures FindMatches({Interval(1, 5, Some("x")), Interval(5, 10, Some("y"))}, ["FIND", "2", "7"]) ==
            {Interval(1, 5, Some("x")), Interval(5, 10, Some("y"))}
  {
    var x, y := Interval(1, 5, Some("x")), Interval(5, 10, Some("y"));
    var tokens := ["FIND", "2", "7"];
    assert FindSyntax(tokens) && Arg(tokens[1]) == 2 && Arg(tokens[2]) == 7 by { SessionArgs(); }
    assert FindMatches({x, y}, tokens) == Overlap({x, y}, 2, 7);
    assert x in Overlap({x, y}, 2, 7) && y in Overlap({x, y}, 2, 7);
  }

  /** The labels of one labelled interval. */
  lemma LabelBagOne(x: Interval)
    requires x.data.Some?
    ensures LabelBag({x}) == multiset{x.data.value}
  {
    LabelBagRemove({x}, x);
    assert {x} - {x} == {};
  }

  /** The labels of two distinct labelled intervals. */
  lemma LabelBagTwo(x: Interval, y: Interval)
    requires x.data.Some? && y.data.Some? && x != y
    ensures LabelBag({x, y}) == multiset{x.data.value, y.data.value}
  {
    LabelBagRemove({x, y}, x);
    assert {x, y} - {x} == {y};
    LabelBagOne(y);
  }

  /** FIND 3 over [1,5,x] and [5,10,y] answers x. */
  lemma SessionPointReply(reply: string)
    requires FindSyntax(["FIND", "3"])
    requires FindReply({Interval(1, 5, Some("x")), Interval(5, 10, Some("y"))}, ["FIND", "3"], reply)
    ensures reply == "x\n"
  {
    SessionPointQuery();
    LabelBagOne(Interval(1, 5, Some("x")));
    var s :| Sorted(s) && multiset(s) == multiset{"x"} && reply == Join(s) + "\n";
    OneLabelReply(s);
  }

  /** FIND 2 7 over [1,5,x] and [5,10,y] answers x y. */
  lemma SessionRangeReply(reply: string)
    requires FindSyntax(["FIND", "2", "7"])
    requires FindReply({Interval(1, 5, Some("x")), Interval(5, 10, Some("y"))}, ["FIND", "2", "7"], reply)
    ensures reply == "x y\n"
  {
    SessionRangeQuery();
    LabelBagTwo(Interval(1, 5, Some("x")), Interval(5, 10, Some("y")));
    var s :| Sorted(s) && multiset(s) == multiset{"x", "y"} && reply == Join(s) + "\n";
    TwoLabelsReply(s);
  }

  /**
    The tests' session: ADD 1 5 x, ADD 5 10 y, FIND 3, FIND 2 7 answer
    OK, OK, x and x y.
   */
  method FindSession() returns (replies: seq<Option<string>>)
    ensures replies == [Some(OK), Some(OK), Some("x\n"), Some("x y\n")]
  {
    var add1, add2 := ["ADD", "1", "5", "x"], ["ADD", "5", "10", "y"];
    var find1, find2 := ["FIND", "3"], ["FIND", "2", "7"];
    assert WellFormedCommand(add1) && WellFormedCommand(add2) &&
           WellFormedCommand(find1) && WellFormedCommand(find2) by { SessionLinesAccepted(); }
    assert Arg(add1[1]) == 1 && Arg(add1[2]) == 5 && Arg(add2[1]) == 5 && Arg(add2[2]) == 10 by { SessionArgs(); }
    var index := new IntervalIndex();
    var r1 := PerformAdd(index, add1);
    assert r1 == Some(OK) && index.intervals == {Interval(1, 5, Some("x"))};
    var r2 := PerformAdd(index, add2);
    assert r2 == Some(OK) && index.intervals == {Interval(1, 5, Some("x")), Interval(5, 10, Some("y"))};
    var r3 := PerformFind(index, find1);
    SessionPointReply(r3);
    var r4 := PerformFind(index, find2);
    SessionRangeReply(r4);
    replies := [r1, r2, Some(r3), Some(r4)];
  }

  /** The tests' partial delete: ADD 1 5 x, then DEL 2 3 x, leaves [1,2,x] and [4,5,x]. */
  method DeleteSession() returns (replies: seq<Option<string>>, remaining: set<Interval>)
    ensures replies == [Some(OK), Some(OK)]
    ensures remaining == {Interval(1, 2, Some("x")), Interval(4, 5, Some("x"))}
  {
    var add, del := ["ADD", "1", "5", "x"], ["DEL", "2", "3", "x"];
    assert WellFormedCommand(add) && WellFormedCommand(del) by { SessionLinesAccepted(); }
    assert Arg(add[1]) == 1 && Arg(add[2]) == 5 && Arg(del[1]) == 2 && Arg(del[2]) == 3 by { SessionArgs(); }
    var index := new IntervalIndex();
    var r1 := PerformAdd(index, add);
    ghost var t1 := index.intervals;
    assert t1 == {Interval(1, 5, Some("x"))};
    var r2 := PerformDelete(index, del);
    assert DelLabel(del) == Some("x");
    assert index.intervals == Chopped(t1, 2, 4, Some("x"));
    DeletePartialEntry();
    replies := [r1, Some(r2)];
    remaining := index.intervals;
  }

  /** FIND 1 on an empty index answers ERROR no results. */
  method EmptyFindSession() returns (reply: string)
    ensures reply == NO_RESULTS
  {
    var find := ["FIND", "1"];
    assert WellFormedCommand(find) by { SessionLinesAccepted(); }
    var index := new IntervalIndex();
    reply := PerformFind(index, find);
  }
}

=== FILE: server.dfy ===
/**
  The per-connection command handlers of `ClientThread`, acting on the one
  shared index.  A reply that the source writes to the socket is returned
  instead; `None` means nothing is written.
 */
module Server {
  import opened Wrappers
  import opened Intervals
  import opened Labels
  import opened Protocol
  import opened Index

  const OK := "OK\n"
  const NO_RESULTS := "ERROR no results\n"

  /** `int(tok)` of a token the validator accepted. */
  function Arg(tok: string): int
    requires UInt32Token(tok)
  {
    ParseInt(tok).value
  }

  /** The label argument of a DEL command, if it has one. */
  function DelLabel(tokens: seq<string>): Option<string>
  {
    if |tokens| == 4 then Some(tokens[3]) else None
  }

  /** ADD begin end name: inserts the interval and acknowledges it. */
  method PerformAdd(index: IntervalIndex, tokens: seq<string>) returns (reply: Option<string>)
    requires index.Valid()
    requires WellFormedCommand(tokens) && tokens[0] == "ADD"
    modifies index
    ensures index.Valid()
    ensures old(index.Labelled()) ==> index.Labelled()
    ensures Arg(tokens[1]) < Arg(tokens[2]) ==>
      index.intervals == old(index.intervals) + {Interval(Arg(tokens[1]), Arg(tokens[2]), Some(tokens[3]))} &&
      reply == Some(OK)
    ensures Arg(tokens[1]) >= Arg(tokens[2]) ==>
      index.intervals == old(index.intervals) && reply == None
  {
    var ok := index.Add(Arg(tokens[1]), Arg(tokens[2]), tokens[3]);
    if ok {
      reply := Some(OK);
    } else {
      reply := None;
    }
  }

  /** DEL begin end [name]: chops the inclusive range [begin, end], i.e. [begin, end + 1). */
  method PerformDelete(index: IntervalIndex, tokens: seq<string>) returns (reply: string)
    requires index.Valid()
    requires WellFormedCommand(tokens) && tokens[0] == "DEL"
    modifies index
    ensures index.Valid()
    ensures old(index.Labelled()) ==> index.Labelled()
    ensures index.intervals == Chopped(old(index.intervals), Arg(tokens[1]), Arg(tokens[2]) + 1, DelLabel(tokens))
    ensures reply == OK
  {
    if |tokens| == 3 {
      index.Chop(Arg(tokens[1]), Arg(tokens[2]) + 1, None);
    } else {
      index.Chop(Arg(tokens[1]), Arg(tokens[2]) + 1, Some(tokens[3]));
    }
    reply := OK;
  }

  /**
    DEL b e [name] with b <= e: afterwards the label covers no point of the
    inclusive range [b, e] and still covers every point outside it that it
    covered before.
   */
  lemma DeleteCoverage(t: set<Interval>, b: int, e: int, d: Option<string>, x: int)
    requires WellFormed(t) && b <= e
    ensures Covers(Chopped(t, b, e + 1, d), d, x) <==> Covers(t, d, x) && !(b <= x <= e)
  {
    ChopCoverage(t, b, e + 1, d, x);
  }

  /** The intervals a FIND command selects: a point query, or an overlap query. */
  function FindMatches(t: set<Interval>, tokens: seq<string>): (r: set<Interval>)
    requires FindSyntax(tokens)
    ensures r <= t
    ensures |tokens| == 2 ==> forall iv :: iv in t ==> (iv in r <==> ContainsPoint(iv, Arg(tokens[1])))
    ensures |tokens| == 3 ==> forall iv :: iv in t ==>
      (iv in r <==> Arg(tokens[1]) < Arg(tokens[2]) && Overlaps(iv, Arg(tokens[1]), Arg(tokens[2])))
  {
    if |tokens| == 2 then At(t, Arg(tokens[1]))
    else Overlap(t, Arg(tokens[1]), Arg(tokens[2]))
  }

  /** The labels of a set of labelled intervals, one per interval. */
  ghost function LabelBag(s: set<Interval>): multiset<string>
    requires forall iv :: iv in s ==> iv.data.Some?
  {
    if s == {} then multiset{}
    else
      var iv :| iv in s;
      multiset{iv.data.value} + LabelBag(s - {iv})
  }

  /** LabelBag does not depend on the order in which the set is taken apart. */
  lemma {:induction false} LabelBagRemove(s: set<Interval>, x: Interval)
    requires forall iv :: iv in s ==> iv.data.Some?
    requires x in s
    ensures LabelBag(s) == multiset{x.data.value} + LabelBag(s - {x})
    decreases |s|
  {
    var y :| y in s && LabelBag(s) == multiset{y.data.value} + LabelBag(s - {y});
    if y != x {
      LabelBagRemove(s - {y}, x);
      LabelBagRemove(s - {x}, y);
      assert s - {y} - {x} == s - {x} - {y};
    }
  }

  /** `[iv.data for iv in matches]`: one label per interval, in the order the set is visited. */
  method CollectLabels(matches: set<Interval>) returns (labels: seq<string>)
    requires forall iv :: iv in matches ==> iv.data.Some?
    ensures multiset(labels) == LabelBag(matches)
    ensures |labels| == |matches|
  {
    labels := [];
    var todo := matches;
    while todo != {}
      invariant todo <= matches
      invariant multiset(labels) + LabelBag(todo) == LabelBag(matches)
      invariant |labels| + |todo| == |matches|
      decreases |todo|
    {
      var iv :| iv in todo;
      LabelBagRemove(todo, iv);
      labels := labels + [iv.data.value];
      todo := todo - {iv};
    }
  }

  /**
    The reply FIND sends over the labelled set `t`: ERROR no results when
    nothing matches, otherwise the labels of the matches, one per interval,
    in sorted order, joined by single spaces and ended by a newline.
   */
  ghost predicate FindReply(t: set<Interval>, tokens: seq<string>, reply: string)
    requires FindSyntax(tokens)
    requires forall iv :: iv in t ==> iv.data.Some?
  {
    var m := FindMatches(t, tokens);
    if m == {} then reply == NO_RESULTS
    else exists s :: Sorted(s) && multiset(s) == LabelBag(m) && |s| == |m| && reply == Join(s) + "\n"
  }

  /**
    What one accepted command does to the labelled set `t`, leaving `t'` and
    sending `reply`: ADD inserts and says OK unless the interval is null, in
    which case nothing changes and nothing is sent; DEL chops the inclusive
    range and says OK; FIND only reads and sends its FindReply.
   */
  ghost predicate Outcome(t: set<Interval>, tokens: seq<string>, t': set<Interval>, reply: Option<string>)
    requires WellFormedCommand(tokens)
    requires forall iv :: iv in t ==> iv.data.Some?
  {
    if tokens[0] == "ADD" then
      var b, e := Arg(tokens[1]), Arg(tokens[2]);
      if b < e then t' == t + {Interval(b, e, Some(tokens[3]))} && reply == Some(OK)
      else t' == t && reply == None
    else if tokens[0] == "DEL" then
      t' == Chopped(t, Arg(tokens[1]), Arg(tokens[2]) + 1, DelLabel(tokens)) && reply == Some(OK)
    else
      t' == t && reply.Some? && FindReply(t, tokens, reply.value)
  }

  /**
    FIND x / FIND b e: the labels of every matching interval, one entry per
    interval, sorted and joined by single spaces; ERROR no results when
    nothing matches.  The index is only read.
   */
  method PerformFind(index: IntervalIndex, tokens: seq<string>) returns (reply: string)
    requires index.Valid() && index.Labelled()
    requires WellFormedCommand(tokens) && tokens[0] == "FIND"
    ensures FindReply(index.intervals, tokens, reply)
  {
    var matches;
    if |tokens| == 2 {
      matches := At(index.intervals, Arg(tokens[1]));
    } else {
      matches := Overlap(index.intervals, Arg(tokens[1]), Arg(tokens[2]));
    }
    assert matches == FindMatches(index.intervals, tokens);
    var labels := CollectLabels(matches);
    var results := Sort(labels);
    assert |results| == |multiset(results)| == |labels| == |matches|;
    if results == [] {
      reply := NO_RESULTS;
    } else {
      reply := Join(results) + "\n";
    }
  }

  /** `perform_action`: dispatch of a validated command on its verb. */
  method PerformAction(index: IntervalIndex, tokens: seq<string>) returns (reply: Option<string>)
    requires index.Valid() && index.Labelled()
    requires WellFormedCommand(tokens)
    modifies index
    ensures index.Valid() && index.Labelled()
    ensures Outcome(old(index.intervals), tokens, index.intervals, reply)
  {
    if tokens[0] == "ADD" {
      reply := PerformAdd(index, tokens);
    } else if tokens[0] == "DEL" {
      var r := PerformDelete(index, tokens);
      reply := Some(r);
    } else {
      var r := PerformFind(index, tokens);
      reply := Some(r);
    }
  }

  /**
    One pass of the connection loop on the tokens of one `recv` chunk:
    validate, and dispatch only what validation accepts.  A rejected chunk
    leaves the index untouched and gets the validator's reply.
   */
  method HandleLine(index: IntervalIndex, tokens: seq<string>) returns (reply: Option<string>)
    requires index.Valid() && index.Labelled()
    modifies index
    ensures index.Valid() && index.Labelled()
    ensures !WellFormedCommand(tokens) ==>
      index.intervals == old(index.intervals) && reply == ValidateData(tokens).reply
    ensures WellFormedCommand(tokens) ==> Outcome(old(index.intervals), tokens, index.intervals, reply)
  {
    var verdict := ValidateData(tokens);
    if !verdict.valid {
      reply := verdict.reply;
    } else {
      reply := PerformAction(index, tokens);
    }
  }
}

=== FILE: wrappers.dfy ===
/** Optional values: Python's `None` or a present value. */
module Wrappers {

  datatype Option<+T> = None | Some(value: T)

}
